=== FILE: README.md ===
# watermark-camera core in Dafny

This project models the pure logic of the watermark-camera library. The library stamps a photo with an information bar: time, name, company, coordinates and address. The model covers four pieces:

- **Watermark layout** (`watermark.dfy`, module `Watermark`) models `drawWatermark`, `drawTextAutoLine` and `formatLatLng`. Given the viewport, the device pixel ratio, a `WatermarkInfo` and a `WatermarkConfig`, it computes:
  - the canvas size and bar geometry;
  - the 40/60 block split and the divider;
  - the time and date lines;
  - the right-block lines, including company ellipsis truncation, the 30-character address cut and the greedy character wrap.

  The canvas is replaced by the list of draw commands it would receive. `ctx.measureText`, `toFixed(6)` and the two rejection causes are fields of a `Host` value, so nothing about them is assumed.
- **Platform detection** (`location.dfy`, module `Location`) models `detectPlatform`: a case-insensitive, priority-ordered substring test on the user agent.
- **Release version bump** (`release.dfy`, module `Release`) models `updateVersion` and the argument check in `main` of `scripts/release.js`. Versions are parsed with `split('.')` and `Number`, bumped, then printed.
- **Data-URL to file** (`upload.dfy`, module `Upload`) models `base64ToFile`:
  - the header/payload split;
  - the MIME type read with `/:(.*?);/` and its `image/jpeg` fallback;
  - the down-counting byte-copy loop.

  `atob` is a parameter.

`text.dfy` (module `Text`) holds the JavaScript string operations these share: `split` on one character, `join`, `includes` and line concatenation. `types.dfy` holds `Option` and `Result`.

## Behaviour worth noting

The model follows the code. In places that differs from how the component is usually described:

- **Right-block layout.** The right block uses a running cursor. A line that is switched off closes its gap: the address moves up by 24 when the name is hidden and by 20 when the company or the coordinates are hidden.
- **Horizontal positions.** Only the name is drawn at `rightX + 16`. The company, coordinates and address are drawn at `rightX`, with no inset.
- **Bar height.** It comes from `config.height || 110`, so a height of 0 also means 110.
- **Time field.** The time is field 1 of `time.split(' ')`, not "everything after the first space". `"d  t"` (two spaces) gives an empty time.
- **Canvas size.** The backing store is `W·dpr × H·dpr` only when that product is a whole number. Otherwise the `canvas.width` setter truncates it, and a product from 2^31 up to 2^32 stores the attribute default (300 wide, 150 high).
- **Company truncation.** The ellipsised text fits the width unless the prefix shrank to nothing. In that case `"..."` is drawn even when it is too wide.
- **Address lines.** A wrapped address line is within the width unless it is a single character.
- **Coordinate label.** The label always says `°N` and `°E`, and a coordinate of exactly 0 counts as missing.

## Model

| member | source | states |
|---|---|---|
| `Text.Split` | src/utils/upload.ts:28 | `split` on one character gives at least one field, no field contains the separator, and joining the fields with it rebuilds the string |
| `Text.SplitJoin` | scripts/release.js:46 | splitting a join of separator-free fields returns exactly those fields (the inverse direction of `Split`) |
| `Text.Contains` | src/utils/location.ts:101-103 | `includes` holds exactly when the token occurs at some position of the string |
| `Watermark.OrElse` | src/utils/watermark.ts:28-36 | a destructuring default: an absent field takes the default, a present one is kept, even when falsy |
| `Watermark.ResolveStyle` | src/utils/watermark.ts:28-65 | each `show*` flag is on unless explicitly `false`; font size and both colours take their defaults (14, `rgba(0,0,0,0.5)`, `#fff`) only when absent; bar height is a non-zero `config.height` as given and 110 when the height is absent or 0 |
| `Watermark.TruthyOr` | src/utils/watermark.ts:38-39 | a present, non-empty name or company is drawn as given; an absent or empty one falls back to `'用户'`/`'公司'`, so the drawn text is never empty |
| `Watermark.UnsignedLong` | src/utils/watermark.ts:48-49 | the WebIDL `unsigned long` conversion of the assigned number is below 2^32 and, for a number in range, its integer part |
| `Watermark.BackingSize` | src/utils/watermark.ts:48-49 | the stored canvas size is at most 2^31 − 1: the integer part of a product below 2^31, the attribute default (300 wide, 150 high) for a product from 2^31 up to 2^32 |
| `Watermark.PixelRatio` | src/utils/watermark.ts:45 | the ratio used is the reported ratio whenever that is present and non-zero, and 1 otherwise |
| `Watermark.CanvasOf` | src/utils/watermark.ts:45-52 | CSS size is the viewport, the transform scale is the pixel ratio, and the backing width and height are the stored sizes of the products, with defaults 300 and 150 |
| `Watermark.BarOf` | src/utils/watermark.ts:62-67 | the bar has 16 on either side, its configured height, its bottom edge 36 above the viewport bottom, radius 12 |
| `Watermark.BlocksOf` | src/utils/watermark.ts:80-83 | the left and right blocks partition the bar width in ratio 2:3 and the right block starts where the left ends |
| `Watermark.DividerOf` | src/utils/watermark.ts:102-107 | the divider is vertical at `rightX − 16`, runs from 12 below the bar top to 12 above its bottom, width 2, in the text colour |
| `Watermark.Take` | src/utils/watermark.ts:87 | `slice(0, n)` gives a prefix of at most n characters, the whole string when it is no longer than n, and exactly n characters otherwise |
| `Watermark.TimeText` | src/utils/watermark.ts:87 | the time text is at most 5 characters and is empty when the stamp has no space |
| `Watermark.DateText` | src/utils/watermark.ts:94 | the date text is the prefix of the stamp up to (not including) its first space, or the whole stamp |
| `Watermark.TimeAndDateOfFields` | src/utils/watermark.ts:86-98 | for a stamp `date␠clock␠…` the date line is `date` and the time line is the first five characters of `clock` |
| `Watermark.TimeAndDateExample` | src/utils/watermark.ts:87-94 | `2024-01-15 14:30:00` shows `14:30` over `2024-01-15` |
| `Watermark.CentredX` | src/utils/watermark.ts:89-90 | a centred line leaves equal gaps to the left and right edges of the left block |
| `Watermark.TimeBlock` | src/utils/watermark.ts:86-99 | two lines exactly when `showTime` and the stamp is non-empty: time in bold 32 at `barY+26`, date in bold `fontSize` 36 lower, each centred |
| `Watermark.ShrinkToFit` | src/utils/watermark.ts:126-128 | the trimming loop ends with a prefix of the company whose ellipsised width fits (or the empty prefix), and every longer prefix overflows |
| `Watermark.ShrinkToFitUnique` | src/utils/watermark.ts:126-128 | any prefix with those properties is the one the loop returns: the longest fitting prefix |
| `Watermark.TruncateCompany` | src/utils/watermark.ts:121-130 | a fitting company is drawn unchanged; an overflowing one becomes the longest fitting prefix plus `"..."`, which fits unless that prefix is empty |
| `Watermark.ClipAddress` | src/utils/watermark.ts:148-151 | an address of at most 30 characters is unchanged; a longer one becomes its first 30 characters plus `"..."` (33 characters) |
| `Watermark.ClipAddressIdempotent` | src/utils/watermark.ts:149-151 | clipping an already clipped address changes nothing |
| `Watermark.WrapFrom` | src/utils/watermark.ts:174-190 | the wrap loop's result spells the text, breaks only where the next character overflows, and keeps every prefix of 2 or more characters of each line within the width |
| `Watermark.WrapSpecUnique` | src/utils/watermark.ts:174-196 | those wrap properties determine the lines: any two line lists satisfying them for the same text are equal |
| `Watermark.WrapLinesFit` | src/utils/watermark.ts:176-189 | every wrapped line is a single character or fits the width |
| `Watermark.PlaceLines` | src/utils/watermark.ts:179-196 | line k is drawn at `y + k·lineHeight`, at `x`, or centred in the width when `center` |
| `Watermark.DrawTextAutoLine` | src/utils/watermark.ts:165-197 | the drawn lines are the greedy wrap of the text; line k is at `y + k·lineHeight`; each is one character or fits `maxWidth` |
| `Watermark.FormatLatLng` | src/utils/watermark.ts:222-225 | the label is empty exactly when latitude or longitude is 0 |
| `Watermark.FormatLatLngFields` | src/utils/watermark.ts:224 | splitting the label at its comma gives the six-place latitude labelled `°N` and the six-place longitude labelled `°E`, whatever the signs |
| `Watermark.RightBlockOf` | src/utils/watermark.ts:72-153 | name, company, coordinates and address appear exactly under their flags; the name is bold 18 and the other lines are in `${fontSize}px`, all in the text colour; y positions follow the running cursor `barY+16+24[name]+20[company]+20[coords]`; address lines are the wrap of the clipped address within `rightWidth − 12`, 18 apart |
| `Watermark.HidingCompanyLiftsLaterLines` | src/utils/watermark.ts:110-143 | turning the company line off leaves the name in place and moves the coordinates and every address line up by exactly 20 |
| `Watermark.HidingNameLiftsLaterLines` | src/utils/watermark.ts:110-143 | turning the name line off moves the company, the coordinates and every address line up by exactly 24 |
| `Watermark.RightCommands` | src/utils/watermark.ts:110-152 | the right block draws the name, then the company, then the lat/lng label, each only when shown, then every address line in order, and nothing else |
| `Watermark.RightBlockCounts` | src/utils/watermark.ts:113-152 | the right block has one line per shown name and company, one lat/lng line exactly when the location is shown and both coordinates are non-zero, and address lines exactly when the location is shown and the address is non-empty |
| `Watermark.DrawWatermark` | src/utils/watermark.ts:22-162 | rejects for a missing 2D context before image loading, and for a failed image; otherwise the canvas is sized as `CanvasOf` states, the bar is at x 16 with width `W−32` and y `H−barHeight−36`, the right block starts at 40% of the bar, the divider is at `rightX−16`, and the time lines and right block are exactly those `TimeBlock` and `RightBlockOf` state for that bar |
| `Watermark.Commands` | src/utils/watermark.ts:57-153 | the draw calls are, in order: the photo stretched to the viewport, the rounded bar in the configured background colour, every time-block line, the divider, then every right-block command, and nothing else |
| `Watermark.DrawCommands` | src/utils/watermark.ts:22-162 | no draw calls when the promise rejects, for a missing context before a failed image; a call with a context and a loaded image always draws |
| `Watermark.DrawCommandsOfLayout` | src/utils/watermark.ts:22-162 | the draw calls are the assembly of the layout `DrawWatermark` decides, and the call rejects for the same reason |
| `Watermark.LayoutCounts` | src/utils/watermark.ts:86-152 | a successful layout has two time lines exactly when the time is shown and non-empty, the right-block line counts above, and a divider stroked in the text colour |
| `Watermark.AssemblyShape` | src/utils/watermark.ts:57-153 | given those counts, the draw calls number at least 3 plus the time lines plus the shown right-block lines, start with the photo and the bar in the background colour, have the divider right after the time lines, and run longer exactly when an address line is drawn |
| `Location.LowerChar` | src/utils/location.ts:100 | lower-casing maps `A`–`Z` 32 code points down, keeps every other character, and never yields an upper-case ASCII letter |
| `Location.ToLower` | src/utils/location.ts:100 | the lower-cased user agent has the same length and is lower-cased character by character |
| `Location.DetectPlatform` | src/utils/location.ts:97-105 | no navigator means `browser`; otherwise `dingtalk` iff the lower-cased UA contains `dingtalk`, `wechat` iff it contains `micromessenger` and not `dingtalk`, `alipay` iff it contains `alipay` and neither earlier token, `browser` iff none |
| `Location.DetectPlatformIgnoresCase` | src/utils/location.ts:100 | the platform of a UA equals the platform of its lower-cased form |
| `Location.DingTalkWins` | src/utils/location.ts:101 | a UA containing `DingTalk` in any capitalisation anywhere is DingTalk whatever other tokens it has |
| `Release.Decimal` | scripts/release.js:51-57 | a number prints as digits with no leading zero, and reading those digits back gives the number |
| `Release.ToNumber` | scripts/release.js:46 | an empty field is 0, a digit field is its value, and every other field is `NaN` (never `undefined`) |
| `Release.ParseVersion` | scripts/release.js:46 | major, minor and patch are `Number` of the first, second and third `.`-separated fields; minor or patch is `undefined` exactly when the string has fewer than 2 or 3 fields |
| `Release.Render` | scripts/release.js:51-57 | a number prints as its canonical numeral (`Decimal`: digits, no leading zero) and reads back as itself; NaN prints as `NaN` and `undefined` as `undefined`; no printed component has a `.` |
| `Release.Inc` | scripts/release.js:51-57 | `+ 1` adds one to a number and turns both `NaN` and `undefined` into `NaN` |
| `Release.Bump` | scripts/release.js:49-58 | major adds one to major and zeroes minor and patch; minor keeps major, adds one to minor and zeroes patch; patch keeps major and minor and adds one to patch; a numeric version strictly increases lexicographically |
| `Release.Format` | scripts/release.js:51-57 | the written version splits on `.` into exactly three fields, the printed major, minor and patch |
| `Release.ParseReleaseType` | scripts/release.js:100 | only `major`, `minor` and `patch` are release types, each naming its own |
| `Release.UpdateVersion` | scripts/release.js:44-61 | fails exactly for a type other than `major`, `minor`, `patch`, with the `default` branch's error; otherwise the written version splits on `.` into the printed components of the bumped parsed version, whatever the current string |
| `Release.Main` | scripts/release.js:96-121 | no argument or any argument other than `major`, `minor`, `patch` stops with the usage text before the version is read; one of those three gives exactly what `updateVersion` gives |
| `Release.FormatParseRoundTrip` | scripts/release.js:46-57 | printing `M.m.p` for numeric (or NaN) components and splitting it on `.` gives back the same version |
| `Release.UpdateNumericVersion` | scripts/release.js:49-58 | from `M.m.p`, major gives `M+1.0.0`, minor gives `M.m+1.0`, patch gives `M.m.p+1`, read back from the written string |
| `Release.UsageExamples` | scripts/release.js:104-106 | `1.0.0` becomes `2.0.0`, `1.1.0` and `1.0.1` |
| `Upload.ScanToSemicolon` | src/utils/upload.ts:29 | the lazy `.*?` stops at the first `;` not preceded by a line terminator, and fails when no such `;` exists |
| `Upload.CaptureAt` | src/utils/upload.ts:29 | a match starting at a position exists iff it holds `:` and a reachable `;` follows; the capture is the text strictly between them |
| `Upload.FirstMatch` | src/utils/upload.ts:29 | the regex match starts at the leftmost position that has one |
| `Upload.MimeOf` | src/utils/upload.ts:29 | the MIME type is the leftmost capture when it is non-empty, and `image/jpeg` otherwise |
| `Upload.MimeBetweenColonAndSemicolon` | src/utils/upload.ts:29 | in a one-line header, the MIME type is the text between the first `:` and the next `;`, or `image/jpeg` when that is empty |
| `Upload.Header` | src/utils/upload.ts:28 | the header is the prefix before the first comma, or the whole string when there is none |
| `Upload.Payload` | src/utils/upload.ts:28-30 | the payload is the comma-free text right after the first comma, ending at the next comma or the end; with no comma it is the string `undefined` |
| `Upload.ToUint8` | src/utils/upload.ts:35 | a stored byte is congruent to the character code modulo 256 |
| `Upload.CopyBytes` | src/utils/upload.ts:31-36 | the byte array has the decoded string's length, byte k is `charCodeAt(k) mod 256`, and each index is written exactly once |
| `Upload.Base64ToFile` | src/utils/upload.ts:27-39 | fails exactly when `atob` rejects the payload; otherwise the file has the given name, the header's MIME type and the decoded bytes |

## Left out

- `coordinateTransform.wgs84ToGcj02`, `transformLat` and `transformLng` (src/utils/location.ts:112-161): they are built from `sin`, `cos` and `sqrt` evaluated in IEEE doubles, which Dafny reals cannot express.
- `drawRoundRect`: the arc path is not modelled. The bar is one `FillRoundRect` command carrying its rectangle and radius.
- Image decoding, the pixels of `drawImage`, and the JPEG encoding of `toDataURL('image/jpeg', 0.9)` are not modelled. A successful run is its list of draw commands, not an encoded image.
- Context state other than the commands is not modelled: `textBaseline`, `textAlign`, `crossOrigin` and the CSS `style` size.
- Each draw command records the colour and font the code requests: `textColor`, `backgroundColor` and `${fontSize}px Arial`. A 2D context ignores a `fillStyle`, `strokeStyle` or `font` value it cannot parse and keeps the previous one. With an unparsable `textColor`, for example, the text is drawn in the background colour and the divider in `#000000`; with a negative `fontSize`, the company is measured and drawn in the name's `bold 18px Arial`. CSS colour and font parsing is not modelled.
- `Watermark.DrawWatermark`: a missing canvas element and a missing 2D context both reject with a `TypeError`. They are merged into `SurfaceUnavailable`.
- `ctx.measureText` and `Number.prototype.toFixed(6)` are host parameters with no assumed properties. The `formatLatLng(39.9, 116.4)` text therefore depends on `toFixed6` and is not fixed here.
- `Watermark.FormatLatLng`: accepts numbers only; the source also accepts strings and converts them with `Number`. NaN coordinates, which are also falsy, are not representable as reals.
- `Location.LowerChar`: lower-cases ASCII letters only. JavaScript `toLowerCase` maps all of Unicode, and a few non-ASCII characters, such as the Kelvin sign, lower-case to ASCII letters.
- Strings are sequences of Unicode scalar values, but JavaScript counts UTF-16 code units. For characters outside the Basic Multilingual Plane these differ in the 30-character address cut, the 5-character time cut, `charCodeAt`, the wrap loop of `drawTextAutoLine` (which steps by code unit and so can split a surrogate pair across two lines), and the company loop's `slice(0, -1)` (which can leave a lone surrogate before `"..."`).
- `Watermark.BlocksOf`: geometry is computed in exact reals, while the program computes in IEEE doubles. `barWidth * 0.4` and `barWidth * 0.6` are rounded, so `3·leftWidth == 2·rightWidth` can fail in the program (at a 375-wide viewport the two blocks are 137.20000000000002 and 205.79999999999998). The other coordinates are rounded the same way, and the `> maxWidth` comparisons of the company and wrap loops compare against a rounded width.
- Every call draws on the one shared `#watermarkCanvas` element, so overlapping calls interleave their resizes and draws. The model gives each call a fresh surface.
- `Release.ToNumber`: digit strings and the empty string are modelled; every other field is NaN. JavaScript `Number` also accepts surrounding whitespace, a sign, `0x`/`0o`/`0b` prefixes, exponents and `Infinity`. Precision loss above 2^53 is not modelled.
- `Release.Render`: a number prints as all its decimal digits. JavaScript prints numbers of 1e21 and above in exponent form, such as `1.2345678901234568e+24`, which contains a `.`; for such versions the "no `.`" property and the three-field split of `Release.Format` do not hold in the program.
- `Upload.Base64ToFile`: the `File` constructor's normalisation of its `type` option (lower-casing, and emptying it when it has non-printable characters) is not modelled; the file records the MIME type as extracted. `atob` is a parameter that returns nothing when it throws.
- `getH5Location`, `getDingTalkLocation`, `getAmapAddress`, `src/utils/time.ts` and `uploadFile` are not modelled: they do geolocation, XHR and fetch I/O.
- `src/utils/camera.ts` (file input and permissions) is not modelled. `src/utils/screen.ts` is reduced to the viewport parameter.
- `example/main.ts`, `src/index.ts`, `src/types/index.ts` and `vite.config.ts` are not modelled: they are demo UI, registration, types and configuration.
- The I/O parts of `scripts/release.js` are not modelled: reading and writing package.json, the git checks, build, commit, tag and push. `scripts/setup.js`, `publish.js` and `build.js` are process plumbing and are not modelled either.

=== FILE: location.dfy ===
/** `detectPlatform` (src/utils/location.ts): which host app the page runs in,
    read from the user-agent string. */
module Location {
  import opened Types
  import opened Text

  datatype Platform = DingTalk | WeChat | Alipay | Browser

  const DingTalkToken: string := "dingtalk"
  const WeChatToken: string := "micromessenger"
  const AlipayToken: string := "alipay"

  /** `toLowerCase` on one character, for the ASCII letters. */
  function LowerChar(c: char): (d: char)
    ensures 'A' <= c <= 'Z' ==> d as int == c as int + 32
    ensures !('A' <= c <= 'Z') ==> d == c
    ensures !('A' <= d <= 'Z')
  {
    if 'A' <= c <= 'Z' then (c as int + 32) as char else c
  }

  /** `s.toLowerCase()`, character by character. */
  function ToLower(s: string): (r: string)
    ensures |r| == |s|
    ensures forall i :: 0 <= i < |s| ==> r[i] == LowerChar(s[i])
  {
    seq(|s|, i requires 0 <= i < |s| => LowerChar(s[i]))
  }

  /** Lower-casing is idempotent. */
  lemma ToLowerIdempotent(s: string)
    ensures ToLower(ToLower(s)) == ToLower(s)
  {
  }

  /** Lower-casing distributes over concatenation. */
  lemma ToLowerConcat(a: string, b: string)
    ensures ToLower(a + b) == ToLower(a) + ToLower(b)
  {
  }

  /** `detectPlatform`: `None` for the user agent means `navigator` is
      undefined. The tokens are tried in the order DingTalk, WeChat, Alipay
      on the lower-cased user agent. */
  function DetectPlatform(userAgent: Option<string>): (p: Platform)
    ensures userAgent.None? ==> p == Browser
    ensures userAgent.Some? ==>
      var ua := ToLower(userAgent.value);
      && (p == DingTalk <==> Contains(ua, DingTalkToken))
      && (p == WeChat <==> !Contains(ua, DingTalkToken) && Contains(ua, WeChatToken))
      && (p == Alipay <==> !Contains(ua, DingTalkToken) && !Contains(ua, WeChatToken) && Contains(ua, AlipayToken))
      && (p == Browser <==> !Contains(ua, DingTalkToken) && !Contains(ua, WeChatToken) && !Contains(ua, AlipayToken))
  {
    match userAgent
    case None => Browser
    case Some(raw) =>
      var ua := ToLower(raw);
      if Contains(ua, DingTalkToken) then DingTalk
      else if Contains(ua, WeChatToken) then WeChat
      else if Contains(ua, AlipayToken) then Alipay
      else Browser
  }

  /** The answer does not depend on the case of the user agent. */
  lemma DetectPlatformIgnoresCase(ua: string)
    ensures DetectPlatform(Some(ToLower(ua))) == DetectPlatform(Some(ua))
  {
    ToLowerIdempotent(ua);
  }

  /** A user agent that mentions DingTalk in any capitalisation, anywhere,
      is DingTalk whatever else it says. */
  lemma DingTalkWins(before: string, token: string, after: string)
    requires ToLower(token) == DingTalkToken
    ensures DetectPlatform(Some(before + token + after)) == DingTalk
  {
    ToLowerConcat(before + token, after);
    ToLowerConcat(before, token);
    var ua := ToLower(before + token + after);
    assert OccursAt(ua, DingTalkToken, |before|);
  }
}

=== FILE: release.dfy ===
/** The version arithmetic of scripts/release.js: `updateVersion` and the
    argument check at the top of `main`. Reading and writing package.json,
    git and npm are not modelled; the current version string is a parameter. */
module Release {
  import opened Types
  import opened Text

  /** A version component after `split('.').map(Number)` and array
      destructuring: a number, `NaN`, or `undefined` when the string had
      fewer than three fields. */
  datatype Component = Num(n: nat) | NaN | Undefined

  datatype Version = Version(major: Component, minor: Component, patch: Component)

  datatype ReleaseType = Major | Minor | Patch

  /** `main` prints its usage text and exits; `updateVersion` calls `error`. */
  datatype ReleaseError = Usage | InvalidType

  predicate IsDigit(c: char)
  {
    '0' <= c <= '9'
  }

  predicate AllDigits(s: string)
  {
    forall i :: 0 <= i < |s| ==> IsDigit(s[i])
  }

  /** The value of a string of decimal digits. */
  function DecimalValue(s: string): nat
    requires AllDigits(s)
    decreases |s|
  {
    if s == [] then 0 else DecimalValue(s[..|s| - 1]) * 10 + (s[|s| - 1] as int - '0' as int)
  }

  /** The decimal numeral of `n`, as template literals print it: digits only,
      no leading zero, and reading it back gives `n`. */
  function Decimal(n: nat): (s: string)
    ensures |s| >= 1 && AllDigits(s)
    ensures s[0] != '0' || s == "0"
    ensures DecimalValue(s) == n
    decreases n
  {
    var last := ('0' as int + n % 10) as char;
    if n < 10 then [last]
    else
      var prefix := Decimal(n / 10);
      assert (prefix + [last])[..|prefix|] == prefix;
      prefix + [last]
  }

  /** `Number(field)` for the fields a version string has: the empty string is
      0, a digit string is its value, anything else is `NaN`. */
  function ToNumber(field: string): (c: Component)
    ensures field == [] ==> c == Num(0)
    ensures c.Num? <==> AllDigits(field)
    ensures AllDigits(field) && field != [] ==> c == Num(DecimalValue(field))
    ensures !AllDigits(field) ==> c == NaN
  {
    if AllDigits(field) then Num(DecimalValue(field)) else NaN
  }

  /** `const [major, minor, patch] = currentVersion.split('.').map(Number)`. */
  function ParseVersion(s: string): (v: Version)
    ensures var fields := Split(s, '.');
      && v.major == ToNumber(fields[0])
      && (v.minor.Undefined? <==> |fields| < 2)
      && (v.patch.Undefined? <==> |fields| < 3)
      && (|fields| > 1 ==> v.minor == ToNumber(fields[1]))
      && (|fields| > 2 ==> v.patch == ToNumber(fields[2]))
  {
    var fields := Split(s, '.');
    Version(ToNumber(fields[0]),
            if |fields| > 1 then ToNumber(fields[1]) else Undefined,
            if |fields| > 2 then ToNumber(fields[2]) else Undefined)
  }

  /** How a template literal prints a component. */
  function Render(c: Component): (s: string)
    ensures '.' !in s
    ensures c.Num? ==> ToNumber(s) == c
    ensures c.NaN? ==> ToNumber(s) == NaN
    ensures c.Num? ==> s == Decimal(c.n)
    ensures c.NaN? ==> s == "NaN"
    ensures c.Undefined? ==> s == "undefined"
  {
    match c
    case Num(n) => Decimal(n)
    case NaN => "NaN"
    case Undefined => "undefined"
  }

  /** `x + 1` on a component: `NaN + 1` and `undefined + 1` are both `NaN`. */
  function Inc(c: Component): (r: Component)
    ensures c.Num? <==> r.Num?
    ensures c.Num? ==> r.n == c.n + 1
    ensures !c.Num? ==> r == NaN
  {
    if c.Num? then Num(c.n + 1) else NaN
  }

  /** `${major}.${minor}.${patch}`: split back on `'.'` it has exactly the
      three printed components as its fields. */
  function Format(v: Version): (s: string)
    ensures Split(s, '.') == [Render(v.major), Render(v.minor), Render(v.patch)]
  {
    var a, b, c := Render(v.major), Render(v.minor), Render(v.patch);
    var fields := [a, b, c];
    assert Join(fields[2..], '.') == c;
    assert Join(fields[1..], '.') == b + "." + c;
    assert Join(fields, '.') == a + "." + (b + "." + c);
    assert a + "." + b + "." + c == Join(fields, '.');
    SplitJoin(fields, '.');
    a + "." + b + "." + c
  }

  predicate Numeric(v: Version)
  {
    v.major.Num? && v.minor.Num? && v.patch.Num?
  }

  /** Lexicographic order on numeric versions. */
  predicate Older(a: Version, b: Version)
    requires Numeric(a) && Numeric(b)
  {
    || a.major.n < b.major.n
    || (a.major.n == b.major.n && a.minor.n < b.minor.n)
    || (a.major.n == b.major.n && a.minor.n == b.minor.n && a.patch.n < b.patch.n)
  }

  /** The `switch` of `updateVersion` on a parsed version. A numeric version
      stays numeric and strictly increases. */
  function Bump(v: Version, t: ReleaseType): (r: Version)
    ensures Numeric(v) ==> Numeric(r) && Older(v, r)
    ensures t == Major ==> r.major == Inc(v.major) && r.minor == r.patch == Num(0)
    ensures t == Minor ==> r.major == v.major && r.minor == Inc(v.minor) && r.patch == Num(0)
    ensures t == Patch ==> r.major == v.major && r.minor == v.minor && r.patch == Inc(v.patch)
  {
    match t
    case Major => Version(Inc(v.major), Num(0), Num(0))
    case Minor => Version(v.major, Inc(v.minor), Num(0))
    case Patch => Version(v.major, v.minor, Inc(v.patch))
  }

  /** The release type named by an argument, if any. */
  function ParseReleaseType(arg: string): (t: Option<ReleaseType>)
    ensures t.Some? <==> arg in {"major", "minor", "patch"}
    ensures t == Some(Major) <==> arg == "major"
    ensures t == Some(Minor) <==> arg == "minor"
    ensures t == Some(Patch) <==> arg == "patch"
  {
    if arg == "major" then Some(Major)
    else if arg == "minor" then Some(Minor)
    else if arg == "patch" then Some(Patch)
    else None
  }

  /** `updateVersion(type)` on the version string read from package.json:
      the new version string, or the `default:` branch's error. */
  function UpdateVersion(current: string, typeArg: string): (r: Result<string, ReleaseError>)
    ensures r.Err? <==> typeArg !in {"major", "minor", "patch"}
    ensures r.Err? ==> r.error == InvalidType
    ensures r.Ok? ==>
      var b := Bump(ParseVersion(current), ParseReleaseType(typeArg).value);
      Split(r.value, '.') == [Render(b.major), Render(b.minor), Render(b.patch)]
  {
    match ParseReleaseType(typeArg)
    case None => Err(InvalidType)
    case Some(t) => Ok(Format(Bump(ParseVersion(current), t)))
  }

  /** `main`: the type argument is checked before the version is read, and
      anything but `major`, `minor` or `patch` (or no argument) stops with
      the usage text. */
  function Main(args: seq<string>, current: string): (r: Result<string, ReleaseError>)
    ensures (|args| == 0 || args[0] !in {"major", "minor", "patch"}) <==> r == Err(Usage)
    ensures |args| > 0 && args[0] in {"major", "minor", "patch"} ==> r == UpdateVersion(current, args[0])
  {
    if |args| == 0 || args[0] == [] || ParseReleaseType(args[0]).None? then Err(Usage)
    else UpdateVersion(current, args[0])
  }

  /** Printing a version with numeric (or NaN) components and splitting it
      back on `'.'` gives the same version. */
  lemma FormatParseRoundTrip(v: Version)
    requires !v.major.Undefined? && !v.minor.Undefined? && !v.patch.Undefined?
    ensures ParseVersion(Format(v)) == v
  {
  }

  /** On a numeric version `M.m.p` each release type gives the version the
      usage text promises, and it is newer. */
  lemma UpdateNumericVersion(major: nat, minor: nat, patch: nat)
    ensures var current := Format(Version(Num(major), Num(minor), Num(patch)));
      && UpdateVersion(current, "major").Ok?
      && ParseVersion(UpdateVersion(current, "major").value) == Version(Num(major + 1), Num(0), Num(0))
      && UpdateVersion(current, "minor").Ok?
      && ParseVersion(UpdateVersion(current, "minor").value) == Version(Num(major), Num(minor + 1), Num(0))
      && UpdateVersion(current, "patch").Ok?
      && ParseVersion(UpdateVersion(current, "patch").value) == Version(Num(major), Num(minor), Num(patch + 1))
  {
  }

  /** `1.0.0` becomes `2.0.0`, `1.1.0` and `1.0.1`, as the usage text says. */
  lemma UsageExamples()
    ensures UpdateVersion("1.0.0", "major") == Ok("2.0.0")
    ensures UpdateVersion("1.0.0", "minor") == Ok("1.1.0")
    ensures UpdateVersion("1.0.0", "patch") == Ok("1.0.1")
  {
    var v := Version(Num(1), Num(0), Num(0));
    assert Decimal(0) == "0" && Decimal(1) == "1" && Decimal(2) == "2";
    assert Format(v) == "1.0.0";
    FormatParseRoundTrip(v);
    assert Format(Version(Num(2), Num(0), Num(0))) == "2.0.0";
    assert Format(Version(Num(1), Num(1), Num(0))) == "1.1.0";
    assert Format(Version(Num(1), Num(0), Num(1))) == "1.0.1";
  }
}

=== FILE: text.dfy ===
/** String helpers the program takes from the JavaScript runtime:
    `String.prototype.split` with a one-character separator, its inverse
    `join`, `includes`, and the concatenation of a list of lines. */
module Text {

  /** `s.split(sep)` for a single-character separator: the maximal runs of
      `s` between occurrences of `sep`, always at least one (possibly empty). */
  function Split(s: string, sep: char): (fields: seq<string>)
    ensures |fields| >= 1
    ensures forall k :: 0 <= k < |fields| ==> sep !in fields[k]
    ensures Join(fields, sep) == s
    decreases |s|
  {
    if s == [] then [[]]
    else
      var rest := Split(s[1..], sep);
      if s[0] == sep then [[]] + rest
      else [[s[0]] + rest[0]] + rest[1..]
  }

  /** `fields.join(sep)`. */
  function Join(fields: seq<string>, sep: char): string
    decreases |fields|
  {
    if |fields| == 0 then []
    else if |fields| == 1 then fields[0]
    else fields[0] + [sep] + Join(fields[1..], sep)
  }

  lemma SplitWithoutSeparator(a: string, sep: char)
    requires sep !in a
    ensures Split(a, sep) == [a]
  {
  }

  lemma {:induction false} SplitAtFirstSeparator(a: string, sep: char, b: string)
    requires sep !in a
    ensures Split(a + [sep] + b, sep) == [a] + Split(b, sep)
    decreases |a|
  {
    var s := a + [sep] + b;
    if a == [] {
      assert s[0] == sep && s[1..] == b;
    } else {
      assert s[0] == a[0] && s[1..] == a[1..] + [sep] + b;
      SplitAtFirstSeparator(a[1..], sep, b);
      assert [a[0]] + a[1..] == a;
    }
  }

  /** Splitting a join of separator-free fields gives the fields back. */
  lemma {:induction false} SplitJoin(fields: seq<string>, sep: char)
    requires |fields| >= 1
    requires forall k :: 0 <= k < |fields| ==> sep !in fields[k]
    ensures Split(Join(fields, sep), sep) == fields
    decreases |fields|
  {
    if |fields| == 1 {
      SplitWithoutSeparator(fields[0], sep);
    } else {
      SplitJoin(fields[1..], sep);
      SplitAtFirstSeparator(fields[0], sep, Join(fields[1..], sep));
      assert [fields[0]] + fields[1..] == fields;
    }
  }

  /** The first field of a split, followed by the separator and the rest of
      the string, when a second field exists. */
  lemma SplitHead(s: string, sep: char)
    ensures |Split(s, sep)| == 1 <==> sep !in s
    ensures |Split(s, sep)| > 1 ==>
      var f := Split(s, sep);
      s == f[0] + [sep] + Join(f[1..], sep)
  {
  }

  /** `s` has `t` at position `i`. */
  predicate OccursAt(s: string, t: string, i: int)
  {
    0 <= i && i + |t| <= |s| && s[i..i + |t|] == t
  }

  /** `s.includes(t)`. */
  function Contains(s: string, t: string): (r: bool)
    ensures r <==> exists i :: OccursAt(s, t, i)
    decreases |s|
  {
    if |t| > |s| then false
    else if s[..|t|] == t then (assert OccursAt(s, t, 0); true)
    else
      var r := Contains(s[1..], t);
      if r then
        var i :| OccursAt(s[1..], t, i);
        assert OccursAt(s, t, i + 1);
        true
      else
        assert forall i :: OccursAt(s, t, i) ==> i > 0 && OccursAt(s[1..], t, i - 1);
        false
  }

  /** The concatenation of a list of lines. */
  function Concat(lines: seq<string>): string
    decreases |lines|
  {
    if |lines| == 0 then [] else lines[0] + Concat(lines[1..])
  }

  /** Unfolding the concatenation at its first line. */
  lemma ConcatCons(lines: seq<string>)
    requires |lines| >= 1
    ensures Concat(lines) == lines[0] + Concat(lines[1..])
  {
  }

  lemma {:induction false} ConcatSnoc(lines: seq<string>, last: string)
    ensures Concat(lines + [last]) == Concat(lines) + last
    decreases |lines|
  {
    if |lines| == 0 {
      assert lines + [last] == [last];
    } else {
      assert (lines + [last])[1..] == lines[1..] + [last];
      ConcatSnoc(lines[1..], last);
    }
  }
}

=== FILE: types.dfy ===
/** Optional values and fallible results shared by every module of the model. */
module Types {

  /** A value that may be absent (`undefined` in the program). */
  datatype Option<+T> = None | Some(value: T)

  /** The outcome of an operation that can reject or throw. */
  datatype Result<+T, +E> = Ok(value: T) | Err(error: E)
}

=== FILE: upload.dfy ===
/** `base64ToFile` (src/utils/upload.ts): split a data URL into its header
    and payload, read the MIME type from the header, decode the payload with
    the host's `atob` and copy it into a byte array. */
module Upload {
  import opened Types
  import opened Text

  /** An element of a `Uint8Array`. */
  newtype Byte = x: int | 0 <= x < 256

  /** The `File` built at the end: its bytes, name and `type` option. */
  datatype FileBlob = FileBlob(bytes: seq<Byte>, name: string, mimeType: string)

  /** `atob` throws on a payload that is not valid base64. */
  datatype UploadError = InvalidBase64

  const DefaultMime: string := "image/jpeg"

  /** The characters a regular-expression `.` does not match. */
  predicate LineTerminator(c: char)
  {
    c == '\n' || c == '\r' || c == '\U{2028}' || c == '\U{2029}'
  }

  /** `h[from..upto]` holds neither `';'` nor a line terminator. */
  predicate Clear(h: string, from: int, upto: int)
    requires 0 <= from <= upto <= |h|
  {
    forall k :: from <= k < upto ==> h[k] != ';' && !LineTerminator(h[k])
  }

  /** The position of the first `';'` at or after `j`, if `.*?` can reach it. */
  function ScanToSemicolon(h: string, j: nat): (e: Option<nat>)
    requires j <= |h|
    ensures e.Some? ==> j <= e.value < |h| && h[e.value] == ';' && Clear(h, j, e.value)
    ensures e.None? ==> forall k :: j <= k < |h| && h[k] == ';' ==> !Clear(h, j, k)
    decreases |h| - j
  {
    if j == |h| then None
    else if h[j] == ';' then Some(j)
    else if LineTerminator(h[j]) then None
    else ScanToSemicolon(h, j + 1)
  }

  /** The capture of `/:(.*?);/` when the match starts at position `i`. */
  function CaptureAt(h: string, i: nat): (c: Option<string>)
    requires i < |h|
    ensures c.Some? <==> h[i] == ':' && exists e :: i < e < |h| && h[e] == ';' && Clear(h, i + 1, e)
    ensures c.Some? ==>
      && i + 1 + |c.value| < |h|
      && c.value == h[i + 1..i + 1 + |c.value|]
      && h[i + 1 + |c.value|] == ';'
      && Clear(h, i + 1, i + 1 + |c.value|)
  {
    if h[i] != ':' then None
    else
      match ScanToSemicolon(h, i + 1)
      case None => None
      case Some(e) => Some(h[i + 1..e])
  }

  /** Where the leftmost match of `/:(.*?);/` at or after `i` starts. */
  function FirstMatch(h: string, i: nat): (m: Option<nat>)
    requires i <= |h|
    ensures m.Some? ==> i <= m.value < |h| && CaptureAt(h, m.value).Some?
    ensures m.Some? ==> forall k :: i <= k < m.value ==> CaptureAt(h, k).None?
    ensures m.None? ==> forall k :: i <= k < |h| ==> CaptureAt(h, k).None?
    decreases |h| - i
  {
    if i == |h| then None
    else if CaptureAt(h, i).Some? then Some(i)
    else FirstMatch(h, i + 1)
  }

  /** `header.match(/:(.*?);/)?.[1] || 'image/jpeg'`. */
  function MimeOf(header: string): (mime: string)
    ensures mime != []
    ensures FirstMatch(header, 0).None? ==> mime == DefaultMime
    ensures FirstMatch(header, 0).Some? ==>
      var c := CaptureAt(header, FirstMatch(header, 0).value).value;
      mime == if c == [] then DefaultMime else c
  {
    match FirstMatch(header, 0)
    case None => DefaultMime
    case Some(m) =>
      var c := CaptureAt(header, m).value;
      if c == [] then DefaultMime else c
  }

  /** The leftmost match starts at the first position that has one. */
  lemma FirstMatchAt(h: string, from: nat, m: nat)
    requires from <= m < |h|
    requires CaptureAt(h, m).Some?
    requires forall k :: from <= k < m ==> CaptureAt(h, k).None?
    ensures FirstMatch(h, from) == Some(m)
  {
  }

  /** For a header without line terminators whose first `':'` is at `i` and
      whose first `';'` after it is at `j`, the MIME type is the text between
      them, or the default when that text is empty. */
  lemma MimeBetweenColonAndSemicolon(header: string, i: nat, j: nat)
    requires i < j < |header|
    requires forall k :: 0 <= k < |header| ==> !LineTerminator(header[k])
    requires header[i] == ':' && ':' !in header[..i]
    requires header[j] == ';' && ';' !in header[i + 1..j]
    ensures MimeOf(header) == if j == i + 1 then DefaultMime else header[i + 1..j]
  {
    forall k | 0 <= k < i
      ensures CaptureAt(header, k).None?
    {
      assert header[k] == header[..i][k];
    }
    forall k | i + 1 <= k < j
      ensures header[k] != ';'
    {
      assert header[k] == header[i + 1..j][k - i - 1];
    }
    assert Clear(header, i + 1, j);
    var c := CaptureAt(header, i).value;
    assert i + 1 + |c| == j;
    FirstMatchAt(header, 0, i);
  }

  /** `arr[0]` of `base64.split(',')`: everything before the first comma. */
  function Header(dataUrl: string): (h: string)
    ensures h <= dataUrl && ',' !in h
    ensures ',' in dataUrl ==> |h| < |dataUrl| && dataUrl[|h|] == ','
    ensures ',' !in dataUrl ==> h == dataUrl
  {
    SplitHead(dataUrl, ',');
    Split(dataUrl, ',')[0]
  }

  /** `arr[1]`: the text after the first comma up to the next comma or the
      end. With no comma `arr[1]` is `undefined`, which `atob` receives as
      the string "undefined". */
  function Payload(dataUrl: string): (p: string)
    ensures ',' !in dataUrl ==> p == "undefined"
    ensures ',' in dataUrl ==>
      var start := |Header(dataUrl)| + 1;
      && ',' !in p
      && start + |p| <= |dataUrl|
      && dataUrl[start..start + |p|] == p
      && (start + |p| == |dataUrl| || dataUrl[start + |p|] == ',')
  {
    var fields := Split(dataUrl, ',');
    SplitHead(dataUrl, ',');
    if |fields| > 1 then
      var rest := fields[1..];
      var tail := Join(rest, ',');
      assert dataUrl == fields[0] + [','] + tail;
      assert dataUrl[|fields[0]| + 1..] == tail;
      assert rest[0] == fields[1];
      assert |rest| > 1 ==> tail == rest[0] + [','] + Join(rest[1..], ',');
      assert |rest| == 1 ==> tail == rest[0];
      fields[1]
    else "undefined"
  }

  /** A `Uint8Array` element assignment keeps the value modulo 256. */
  function ToUint8(code: int): (b: Byte)
    ensures (b as int - code) % 256 == 0
  {
    (code % 256) as Byte
  }

  /** The down-counting copy loop: `n = bstr.length`, a zero-filled array of
      that length, then `while (n--) u8arr[n] = bstr.charCodeAt(n)`. Each
      index is written exactly once, as `writes` records. */
  method CopyBytes(bstr: string) returns (bytes: seq<Byte>, ghost writes: seq<nat>)
    ensures |bytes| == |bstr| && |writes| == |bstr|
    ensures forall k :: 0 <= k < |bstr| ==> bytes[k] == ToUint8(bstr[k] as int)
    ensures forall k :: 0 <= k < |bstr| ==> writes[k] == 1
  {
    var n := |bstr|;
    var u8arr := new Byte[n](_ => 0);
    writes := seq(n, _ => 0);
    while n > 0
      invariant 0 <= n <= u8arr.Length == |bstr| == |writes|
      invariant forall k :: n <= k < u8arr.Length ==> u8arr[k] == ToUint8(bstr[k] as int) && writes[k] == 1
      invariant forall k :: 0 <= k < n ==> writes[k] == 0
      decreases n
    {
      n := n - 1;
      u8arr[n] := ToUint8(bstr[n] as int);
      writes := writes[n := writes[n] + 1];
    }
    bytes := u8arr[..];
  }

  /** `base64ToFile`: the file holds the decoded bytes, the given name and
      the MIME type from the header; an undecodable payload throws. */
  method Base64ToFile(dataUrl: string, filename: string, atob: string -> Option<string>) returns (r: Result<FileBlob, UploadError>)
    ensures atob(Payload(dataUrl)).None? <==> r.Err?
    ensures r.Ok? ==>
      && var bstr := atob(Payload(dataUrl)).value;
      && r.value.name == filename
      && r.value.mimeType == MimeOf(Header(dataUrl))
      && |r.value.bytes| == |bstr|
      && forall k :: 0 <= k < |bstr| ==> r.value.bytes[k] == ToUint8(bstr[k] as int)
  {
    var mime := MimeOf(Header(dataUrl));
    var decoded := atob(Payload(dataUrl));
    if decoded.None? {
      return Err(InvalidBase64);
    }
    var bytes, _ := CopyBytes(decoded.value);
    r := Ok(FileBlob(bytes, filename, mime));
  }
}

=== FILE: watermark.dfy ===
/** The layout engine of `drawWatermark` (src/utils/watermark.ts): given the
    viewport, the device pixel ratio, a `WatermarkInfo`, a `WatermarkConfig`
    and a text-measuring function, it decides every draw call the canvas
    receives. The canvas itself is replaced by the list of commands it is
    given, in drawing order. */
module Watermark {
  import opened Types
  import opened Text

  /** A canvas font: `bold 32px Arial` is `Font(true, 32.0)`. */
  datatype Font = Font(bold: bool, size: real)

  /** One call on the 2D context, in CSS-pixel coordinates. */
  datatype Command =
    | DrawImage(x: real, y: real, width: real, height: real)
    | FillRoundRect(x: real, y: real, width: real, height: real, radius: real, color: string)
    | StrokeLine(x0: real, y0: real, x1: real, y1: real, lineWidth: real, color: string)
    | FillText(text: string, x: real, y: real, font: Font, color: string)

  /** What the host supplies: `ctx.measureText(s).width` under a font,
      `Number.prototype.toFixed(6)`, whether a 2D context could be had for
      the canvas element, and whether the source image loads. */
  datatype Host = Host(
    measure: (Font, string) -> real,
    toFixed6: real -> string,
    contextAvailable: bool,
    imageLoads: bool)

  /** `window.innerWidth`, `window.innerHeight` and `window.devicePixelRatio`. */
  datatype Viewport = Viewport(width: nat, height: nat, devicePixelRatio: Option<real>)

  /** The watermark record; the program's type makes address, time, lat and
      lng mandatory and name and company optional. */
  datatype WatermarkInfo = WatermarkInfo(
    address: string,
    time: string,
    lat: real,
    lng: real,
    name: Option<string>,
    company: Option<string>)

  /** The caller's configuration, every field optional. */
  datatype WatermarkConfig = WatermarkConfig(
    showTime: Option<bool>,
    showLocation: Option<bool>,
    showName: Option<bool>,
    showCompany: Option<bool>,
    backgroundColor: Option<string>,
    textColor: Option<string>,
    fontSize: Option<real>,
    height: Option<real>)

  /** The configuration after its defaults are applied. */
  datatype Style = Style(
    showTime: bool,
    showLocation: bool,
    showName: bool,
    showCompany: bool,
    backgroundColor: string,
    textColor: string,
    fontSize: real,
    barHeight: real)

  /** The canvas: its backing store in device pixels, its CSS size, and the
      scale of the transform installed with `setTransform`. */
  datatype Canvas = Canvas(backingWidth: nat, backingHeight: nat, cssWidth: nat, cssHeight: nat, scale: real)

  /** The rounded information bar. */
  datatype Bar = Bar(x: real, y: real, width: real, height: real, radius: real)

  /** The bar split into the time block on the left and the text block on the right. */
  datatype Blocks = Blocks(leftX: real, leftWidth: real, rightX: real, rightWidth: real)

  /** The lines of the right block; a line that is switched off is `None`. */
  datatype RightBlock = RightBlock(
    name: Option<Command>,
    company: Option<Command>,
    latLng: Option<Command>,
    address: seq<Command>)

  /** Everything one successful call decides. */
  datatype Watermark = Watermark(
    canvas: Canvas,
    bar: Bar,
    blocks: Blocks,
    time: seq<Command>,
    divider: Command,
    right: RightBlock)

  /** Why the returned promise rejects: no 2D context (a `TypeError` on the
      first context call) or `img.onerror`. */
  datatype RenderError = SurfaceUnavailable | ImageLoadFailed

  const BarPadding: real := 16.0
  const BarGap: real := 20.0
  const BarRadius: real := 12.0
  const DefaultBarHeight: real := 110.0
  const DefaultFontSize: real := 14.0
  const DefaultBackground: string := "rgba(0,0,0,0.5)"
  const DefaultTextColor: string := "#fff"
  const DefaultName: string := "用户"
  const DefaultCompany: string := "公司"
  const Ellipsis: string := "..."
  const AddressLimit: nat := 30
  const TimeFont: Font := Font(true, 32.0)
  const NameFont: Font := Font(true, 18.0)

  // ---------------------------------------------------------------------
  // Defaults

  /** A destructuring default `x = d`: only `undefined` takes the default. */
  function OrElse<T>(o: Option<T>, d: T): (r: T)
    ensures o.None? ==> r == d
    ensures o.Some? ==> r == o.value
  {
    match o
    case None => d
    case Some(v) => v
  }

  /** `s || d` for an optional string: `undefined` and `''` are falsy. */
  function TruthyOr(o: Option<string>, d: string): (r: string)
    ensures o.Some? && o.value != [] ==> r == o.value
    ensures o.None? || o.value == [] ==> r == d
    ensures r == d <==> o.None? || o.value == [] || o.value == d
    ensures r != [] || d == []
  {
    if o.Some? && o.value != [] then o.value else d
  }

  /** The destructuring at the top of `drawWatermark` plus `config.height || 110`. */
  function ResolveStyle(c: WatermarkConfig): (s: Style)
    ensures s.showTime <==> c.showTime != Some(false)
    ensures s.showLocation <==> c.showLocation != Some(false)
    ensures s.showName <==> c.showName != Some(false)
    ensures s.showCompany <==> c.showCompany != Some(false)
    ensures c.fontSize.None? ==> s.fontSize == DefaultFontSize
    ensures c.fontSize.Some? ==> s.fontSize == c.fontSize.value
    ensures s.backgroundColor == OrElse(c.backgroundColor, DefaultBackground)
    ensures s.textColor == OrElse(c.textColor, DefaultTextColor)
    ensures s.barHeight != 0.0
    ensures c.height.Some? && c.height.value != 0.0 ==> s.barHeight == c.height.value
    ensures s.barHeight == DefaultBarHeight <==> c.height.None? || c.height.value in {0.0, DefaultBarHeight}
  {
    Style(
      OrElse(c.showTime, true),
      OrElse(c.showLocation, true),
      OrElse(c.showName, true),
      OrElse(c.showCompany, true),
      OrElse(c.backgroundColor, DefaultBackground),
      OrElse(c.textColor, DefaultTextColor),
      OrElse(c.fontSize, DefaultFontSize),
      if c.height.Some? && c.height.value != 0.0 then c.height.value else DefaultBarHeight)
  }

  // ---------------------------------------------------------------------
  // Canvas and bar geometry

  /** The WebIDL `unsigned long` conversion applied when a number is stored
      into `canvas.width`/`canvas.height`: truncate toward zero, then reduce
      modulo 2^32. */
  function UnsignedLong(x: real): (r: nat)
    ensures r < 0x1_0000_0000
    ensures 0.0 <= x < 0x1_0000_0000 as real ==> r as real <= x < r as real + 1.0
  {
    var t := if x >= 0.0 then x.Floor else -((-x).Floor);
    t % 0x1_0000_0000
  }

  /** The largest value a reflected `unsigned long` attribute accepts. */
  const MaxReflected: nat := 0x7FFF_FFFF
  /** The defaults of the canvas `width` and `height` attributes. */
  const DefaultCanvasWidth: nat := 300
  const DefaultCanvasHeight: nat := 150

  /** The backing-store size after `canvas.width = css * dpr` (or `height`):
      the product converted to `unsigned long`, which the reflected attribute
      keeps when it is at most 2^31 - 1 and replaces by the attribute's
      default otherwise. */
  function BackingSize(css: nat, dpr: real, default: nat): (n: nat)
    requires default <= MaxReflected
    ensures n <= MaxReflected
    ensures 0.0 <= css as real * dpr < (MaxReflected + 1) as real ==> n as real <= css as real * dpr < n as real + 1.0
    ensures (MaxReflected + 1) as real <= css as real * dpr < 0x1_0000_0000 as real ==> n == default
  {
    var v := UnsignedLong(css as real * dpr);
    if v <= MaxReflected then v else default
  }

  /** `window.devicePixelRatio || 1`. */
  function PixelRatio(vp: Viewport): (dpr: real)
    ensures dpr != 0.0
    ensures vp.devicePixelRatio.Some? && vp.devicePixelRatio.value != 0.0 ==> dpr == vp.devicePixelRatio.value
    ensures vp.devicePixelRatio.None? || vp.devicePixelRatio.value == 0.0 ==> dpr == 1.0
  {
    if vp.devicePixelRatio.Some? && vp.devicePixelRatio.value != 0.0 then vp.devicePixelRatio.value else 1.0
  }

  /** The canvas after its size and transform are set. */
  function CanvasOf(vp: Viewport): (c: Canvas)
    ensures c.cssWidth == vp.width && c.cssHeight == vp.height
    ensures c.scale == PixelRatio(vp)
    ensures c.backingWidth == BackingSize(vp.width, c.scale, DefaultCanvasWidth)
    ensures c.backingHeight == BackingSize(vp.height, c.scale, DefaultCanvasHeight)
  {
    var dpr := PixelRatio(vp);
    Canvas(BackingSize(vp.width, dpr, DefaultCanvasWidth), BackingSize(vp.height, dpr, DefaultCanvasHeight), vp.width, vp.height, dpr)
  }

  /** A 375 x 667 viewport at pixel ratio 2 gets a 750 x 1334 backing store;
      with no pixel ratio reported the backing store is the CSS size. */
  lemma CanvasExamples()
    ensures CanvasOf(Viewport(375, 667, Some(2.0))) == Canvas(750, 1334, 375, 667, 2.0)
    ensures CanvasOf(Viewport(375, 667, None)) == Canvas(375, 667, 375, 667, 1.0)
  {
  }

  /** The bar: 16 from either side, `barHeight` tall, its bottom edge 36 above
      the bottom of the viewport. */
  function BarOf(vp: Viewport, s: Style): (b: Bar)
    ensures b.x == BarPadding && b.x + b.width == vp.width as real - BarPadding
    ensures b.height == s.barHeight
    ensures b.y + b.height == vp.height as real - BarPadding - BarGap
    ensures b.radius == BarRadius
  {
    var barWidth := vp.width as real - BarPadding * 2.0;
    Bar(BarPadding, vp.height as real - s.barHeight - BarPadding - BarGap, barWidth, s.barHeight, BarRadius)
  }

  /** The 40/60 split of the bar. */
  function BlocksOf(b: Bar): (k: Blocks)
    ensures k.leftX == b.x
    ensures k.leftWidth + k.rightWidth == b.width
    ensures 3.0 * k.leftWidth == 2.0 * k.rightWidth
    ensures k.rightX == k.leftX + k.leftWidth
  {
    var leftWidth := b.width * 0.4;
    Blocks(b.x, leftWidth, b.x + leftWidth, b.width * 0.6)
  }

  /** The vertical rule 16 left of the right block, 12 in from the bar's top and bottom. */
  function DividerOf(b: Bar, k: Blocks, s: Style): (d: Command)
    ensures d.StrokeLine? && d.x0 == d.x1 == k.rightX - 16.0
    ensures d.y0 == b.y + 12.0 && d.y1 + 12.0 == b.y + b.height
    ensures d.lineWidth == 2.0 && d.color == s.textColor
  {
    StrokeLine(k.rightX - 16.0, b.y + 12.0, k.rightX - 16.0, b.y + b.height - 12.0, 2.0, s.textColor)
  }

  // ---------------------------------------------------------------------
  // Left block: time and date

  /** `s.slice(0, n)`. */
  function Take(s: string, n: nat): (r: string)
    ensures |r| <= n && r <= s
    ensures |s| <= n ==> r == s
    ensures |s| > n ==> |r| == n
  {
    if |s| <= n then s else s[..n]
  }

  /** `info.time.split(' ')[1]?.slice(0, 5) || ''`. */
  function TimeText(time: string): (r: string)
    ensures |r| <= 5
    ensures ' ' !in time ==> r == []
  {
    var fields := Split(time, ' ');
    if |fields| > 1 then Take(fields[1], 5) else []
  }

  /** `info.time.split(' ')[0] || ''`. */
  function DateText(time: string): (r: string)
    ensures r <= time && ' ' !in r
    ensures ' ' !in time ==> r == time
    ensures ' ' in time ==> |r| < |time| && time[|r|] == ' '
  {
    var fields := Split(time, ' ');
    SplitHead(time, ' ');
    fields[0]
  }

  /** For a time written `date + " " + clock + rest`, the date is `date` and
      the clock is cut to its first five characters. */
  lemma {:induction false} TimeAndDateOfFields(date: string, clock: string, rest: seq<string>)
    requires ' ' !in date && ' ' !in clock
    requires forall k :: 0 <= k < |rest| ==> ' ' !in rest[k]
    ensures DateText(Join([date, clock] + rest, ' ')) == date
    ensures TimeText(Join([date, clock] + rest, ' ')) == Take(clock, 5)
  {
    var fields := [date, clock] + rest;
    forall k | 0 <= k < |fields|
      ensures ' ' !in fields[k]
    {
      if k >= 2 { assert fields[k] == rest[k - 2]; }
    }
    SplitJoin(fields, ' ');
  }

  /** The usual time stamp `2024-01-15 14:30:00` gives `14:30` over `2024-01-15`. */
  lemma TimeAndDateExample()
    ensures TimeText("2024-01-15 14:30:00") == "14:30"
    ensures DateText("2024-01-15 14:30:00") == "2024-01-15"
  {
    TimeAndDateOfFields("2024-01-15", "14:30:00", []);
    assert Join(["2024-01-15", "14:30:00"] + [], ' ') == "2024-01-15 14:30:00";
  }

  /** `leftX + (leftBlockWidth - width) / 2`. */
  function CentredX(k: Blocks, width: real): (x: real)
    ensures x - k.leftX == (k.leftX + k.leftWidth) - (x + width)
  {
    k.leftX + (k.leftWidth - width) / 2.0
  }

  /** The time (bold 32) at `barY + 26` and the date (bold fontSize) 36 below,
      each centred in the left block; nothing unless `showTime` and a
      non-empty time. */
  function TimeBlock(h: Host, s: Style, info: WatermarkInfo, b: Bar, k: Blocks): (cmds: seq<Command>)
    ensures |cmds| == 0 <==> !s.showTime || info.time == []
    ensures |cmds| != 0 ==> |cmds| == 2
    ensures |cmds| == 2 ==>
      && cmds[0].FillText? && cmds[0].text == TimeText(info.time)
      && cmds[0].font == TimeFont && cmds[0].y == b.y + 26.0
      && cmds[0].x - k.leftX == (k.leftX + k.leftWidth) - (cmds[0].x + h.measure(TimeFont, cmds[0].text))
      && cmds[1].FillText? && cmds[1].text == DateText(info.time)
      && cmds[1].font == Font(true, s.fontSize) && cmds[1].y == cmds[0].y + 36.0
      && cmds[1].x - k.leftX == (k.leftX + k.leftWidth) - (cmds[1].x + h.measure(cmds[1].font, cmds[1].text))
      && cmds[0].color == cmds[1].color == s.textColor
  {
    if s.showTime && info.time != [] then
      var currentY := b.y + 26.0;
      var timeStr := TimeText(info.time);
      var dateStr := DateText(info.time);
      var dateFont := Font(true, s.fontSize);
      [ FillText(timeStr, CentredX(k, h.measure(TimeFont, timeStr)), currentY, TimeFont, s.textColor),
        FillText(dateStr, CentredX(k, h.measure(dateFont, dateStr)), currentY + 36.0, dateFont, s.textColor) ]
    else []
  }

  // ---------------------------------------------------------------------
  // Company: ellipsis truncation

  /** The `while` loop of the company line: drop the last character while the
      candidate with `"..."` appended is too wide and not yet empty. The
      result is the longest prefix whose ellipsised form fits, or empty. */
  function ShrinkToFit(h: Host, f: Font, c: string, maxWidth: real): (p: string)
    ensures p <= c
    ensures h.measure(f, p + Ellipsis) <= maxWidth || p == []
    ensures forall n :: |p| < n <= |c| ==> h.measure(f, c[..n] + Ellipsis) > maxWidth
    decreases |c|
  {
    if h.measure(f, c + Ellipsis) > maxWidth && |c| > 0 then
      var p := ShrinkToFit(h, f, c[..|c| - 1], maxWidth);
      assert forall n :: |p| < n < |c| ==> c[..|c| - 1][..n] == c[..n];
      assert c[..|c|] == c;
      p
    else c
  }

  /** A prefix with those three properties is the one the loop finds. */
  lemma ShrinkToFitUnique(h: Host, f: Font, c: string, maxWidth: real, q: string)
    requires q <= c
    requires h.measure(f, q + Ellipsis) <= maxWidth || q == []
    requires forall n :: |q| < n <= |c| ==> h.measure(f, c[..n] + Ellipsis) > maxWidth
    ensures ShrinkToFit(h, f, c, maxWidth) == q
  {
    var p := ShrinkToFit(h, f, c, maxWidth);
    assert c[..|q|] == q;
    assert c[..|p|] == p;
  }

  /** The company text as drawn: unchanged when it fits `maxWidth`, otherwise
      a prefix of it followed by `"..."`. */
  function TruncateCompany(h: Host, f: Font, company: string, maxWidth: real): (r: string)
    ensures h.measure(f, company) <= maxWidth ==> r == company
    ensures h.measure(f, company) > maxWidth ==>
      && |r| >= |Ellipsis| && r[|r| - |Ellipsis|..] == Ellipsis
      && var p := r[..|r| - |Ellipsis|];
      && p <= company
      && (h.measure(f, r) <= maxWidth || p == [])
      && forall n :: |p| < n <= |company| ==> h.measure(f, company[..n] + Ellipsis) > maxWidth
  {
    if h.measure(f, company) > maxWidth then
      var p := ShrinkToFit(h, f, company, maxWidth);
      assert (p + Ellipsis)[..|p|] == p;
      p + Ellipsis
    else company
  }

  // ---------------------------------------------------------------------
  // Address: pre-truncation and greedy wrapping

  /** An address longer than 30 characters keeps its first 30 and gains `"..."`. */
  function ClipAddress(a: string): (r: string)
    ensures |a| <= AddressLimit ==> r == a
    ensures |a| > AddressLimit ==> |r| == AddressLimit + 3 && r[..AddressLimit] == a[..AddressLimit] && r[AddressLimit..] == Ellipsis
  {
    if |a| > AddressLimit then a[..AddressLimit] + Ellipsis else a
  }

  /** Clipping twice is clipping once. */
  lemma ClipAddressIdempotent(a: string)
    ensures ClipAddress(ClipAddress(a)) == ClipAddress(a)
  {
  }

  /** Every prefix of `line` of two or more characters fits `maxWidth`. */
  predicate PrefixesFit(h: Host, f: Font, line: string, maxWidth: real)
  {
    forall n :: 2 <= n <= |line| ==> h.measure(f, line[..n]) <= maxWidth
  }

  /** Line `k` is followed by a line whose first character would overflow it. */
  predicate BreakForced(h: Host, f: Font, maxWidth: real, lines: seq<string>, k: int)
  {
    0 <= k && k + 1 < |lines| && lines[k + 1] != [] && h.measure(f, lines[k] + [lines[k + 1][0]]) > maxWidth
  }

  /** The lines spell the text, and none is empty unless the text is. */
  predicate Spells(text: string, lines: seq<string>)
  {
    && |lines| >= 1
    && Concat(lines) == text
    && (text == [] ==> lines == [[]])
    && (text != [] ==> forall k :: 0 <= k < |lines| ==> lines[k] != [])
  }

  /** What a greedy character wrap of `text` into `lines` means: the lines
      spell the text, every line's prefixes of two or more characters fit,
      and a line ends only where the next character would overflow it. */
  predicate WrapSpec(h: Host, f: Font, text: string, maxWidth: real, lines: seq<string>)
  {
    && Spells(text, lines)
    && (forall k :: 0 <= k < |lines| ==> PrefixesFit(h, f, lines[k], maxWidth))
    && (forall k :: 0 <= k < |lines| - 1 ==> BreakForced(h, f, maxWidth, lines, k))
  }

  /** A line satisfying `PrefixesFit` is a single character or fits. */
  lemma WrappedLineFits(h: Host, f: Font, line: string, maxWidth: real)
    requires PrefixesFit(h, f, line, maxWidth)
    ensures |line| <= 1 || h.measure(f, line) <= maxWidth
  {
    if |line| >= 2 { assert line[..|line|] == line; }
  }

  /** Every line of a wrap is a single character or fits. */
  lemma WrapLinesFit(h: Host, f: Font, text: string, maxWidth: real, lines: seq<string>)
    requires WrapSpec(h, f, text, maxWidth, lines)
    ensures forall k :: 0 <= k < |lines| ==> |lines[k]| <= 1 || h.measure(f, lines[k]) <= maxWidth
  {
    forall k | 0 <= k < |lines|
      ensures |lines[k]| <= 1 || h.measure(f, lines[k]) <= maxWidth
    {
      WrappedLineFits(h, f, lines[k], maxWidth);
    }
  }

  /** The tail of a wrap is a wrap of the rest of the text. */
  lemma WrapSpecTail(h: Host, f: Font, text: string, maxWidth: real, lines: seq<string>)
    requires WrapSpec(h, f, text, maxWidth, lines) && |lines| >= 2
    ensures |lines[0]| <= |text| && text[..|lines[0]|] == lines[0]
    ensures WrapSpec(h, f, text[|lines[0]|..], maxWidth, lines[1..])
  {
    ConcatCons(lines);
    var rest := lines[1..];
    assert text[|lines[0]|..] == Concat(rest);
    ConcatCons(rest);
    assert BreakForced(h, f, maxWidth, lines, 0);
    forall k | 0 <= k < |rest| - 1
      ensures BreakForced(h, f, maxWidth, rest, k)
    {
      assert BreakForced(h, f, maxWidth, lines, k + 1);
    }
  }

  /** The first line of a wrap is a prefix of the text, and all of the text
      when it is the only line. */
  lemma FirstLineIsPrefix(h: Host, f: Font, text: string, maxWidth: real, lines: seq<string>)
    requires WrapSpec(h, f, text, maxWidth, lines)
    ensures |lines[0]| <= |text| && text[..|lines[0]|] == lines[0]
    ensures |lines| == 1 ==> lines[0] == text
  {
    ConcatCons(lines);
  }

  /** Where a wrap breaks after its first line, the text one character past
      that line overflows. */
  lemma FirstBreakOverflows(h: Host, f: Font, text: string, maxWidth: real, lines: seq<string>)
    requires WrapSpec(h, f, text, maxWidth, lines)
    ensures |lines| >= 2 ==> |lines[0]| < |text| && h.measure(f, text[..|lines[0]| + 1]) > maxWidth
  {
    if |lines| >= 2 {
      WrapSpecTail(h, f, text, maxWidth, lines);
      ConcatCons(lines[1..]);
      assert BreakForced(h, f, maxWidth, lines, 0);
      assert text[|lines[0]|] == lines[1][0];
      assert text[..|lines[0]| + 1] == lines[0] + [lines[1][0]];
    }
  }

  /** Every prefix of the text of two or more characters that lies within
      the first line fits. */
  lemma FirstLinePrefixesFit(h: Host, f: Font, text: string, maxWidth: real, lines: seq<string>)
    requires WrapSpec(h, f, text, maxWidth, lines)
    ensures forall n :: 2 <= n <= |lines[0]| ==> h.measure(f, text[..n]) <= maxWidth
  {
    FirstLineIsPrefix(h, f, text, maxWidth, lines);
    assert PrefixesFit(h, f, lines[0], maxWidth);
    forall n | 2 <= n <= |lines[0]|
      ensures h.measure(f, text[..n]) <= maxWidth
    {
      assert text[..n] == lines[0][..n];
    }
  }

  /** Of two wraps of the same text, neither first line is shorter than the other. */
  lemma FirstLinesAgree(h: Host, f: Font, text: string, maxWidth: real, a: seq<string>, b: seq<string>)
    requires WrapSpec(h, f, text, maxWidth, a)
    requires WrapSpec(h, f, text, maxWidth, b)
    requires text != []
    ensures |a[0]| >= |b[0]|
  {
    FirstLineIsPrefix(h, f, text, maxWidth, a);
    FirstLineIsPrefix(h, f, text, maxWidth, b);
    FirstBreakOverflows(h, f, text, maxWidth, a);
    FirstLinePrefixesFit(h, f, text, maxWidth, b);
  }

  /** A greedy wrap is determined by the text: two wraps of the same text are equal. */
  lemma {:induction false} WrapSpecUnique(h: Host, f: Font, text: string, maxWidth: real, a: seq<string>, b: seq<string>)
    requires WrapSpec(h, f, text, maxWidth, a)
    requires WrapSpec(h, f, text, maxWidth, b)
    ensures a == b
    decreases |text|
  {
    if text != [] {
      FirstLinesAgree(h, f, text, maxWidth, a, b);
      FirstLinesAgree(h, f, text, maxWidth, b, a);
      FirstLineIsPrefix(h, f, text, maxWidth, a);
      FirstLineIsPrefix(h, f, text, maxWidth, b);
      if |a| >= 2 {
        WrapSpecTail(h, f, text, maxWidth, a);
        ConcatCons(a[1..]);
      }
      if |b| >= 2 {
        WrapSpecTail(h, f, text, maxWidth, b);
        ConcatCons(b[1..]);
      }
      if |a| >= 2 && |b| >= 2 {
        WrapSpecUnique(h, f, text[|a[0]|..], maxWidth, a[1..], b[1..]);
        assert a == [a[0]] + a[1..] && b == [b[0]] + b[1..];
      }
    }
  }

  /** Appending a character that still fits to the last line keeps a wrap. */
  lemma ExtendLastLine(h: Host, f: Font, text: string, maxWidth: real, done: seq<string>, line: string, c: char)
    requires text != []
    requires WrapSpec(h, f, text, maxWidth, done + [line])
    requires h.measure(f, line + [c]) <= maxWidth
    ensures WrapSpec(h, f, text + [c], maxWidth, done + [line + [c]])
  {
    var before := done + [line];
    var grown := line + [c];
    var after := done + [grown];
    ConcatSnoc(done, line);
    ConcatSnoc(done, grown);
    assert before[|done|] == line;
    forall k | 0 <= k < |after|
      ensures after[k] != []
    {
      if k < |done| { assert after[k] == before[k]; }
    }
    forall n | 2 <= n <= |grown|
      ensures h.measure(f, grown[..n]) <= maxWidth
    {
      if n <= |line| {
        assert grown[..n] == line[..n];
      } else {
        assert grown[..n] == grown;
      }
    }
    forall k | 0 <= k < |after|
      ensures PrefixesFit(h, f, after[k], maxWidth)
    {
      if k < |done| { assert after[k] == before[k]; }
    }
    forall k | 0 <= k < |after| - 1
      ensures BreakForced(h, f, maxWidth, after, k)
    {
      assert BreakForced(h, f, maxWidth, before, k);
      assert after[k] == before[k];
      if k + 1 < |done| {
        assert after[k + 1] == before[k + 1];
      } else {
        assert after[k + 1][0] == before[k + 1][0];
      }
    }
  }

  /** Starting a new line with a character that would overflow the last one keeps a wrap. */
  lemma BreakBeforeChar(h: Host, f: Font, text: string, maxWidth: real, lines: seq<string>, c: char)
    requires text != []
    requires WrapSpec(h, f, text, maxWidth, lines)
    requires h.measure(f, lines[|lines| - 1] + [c]) > maxWidth
    ensures WrapSpec(h, f, text + [c], maxWidth, lines + [[c]])
  {
    var after := lines + [[c]];
    ConcatSnoc(lines, [c]);
    forall k | 0 <= k < |after|
      ensures after[k] != [] && PrefixesFit(h, f, after[k], maxWidth)
    {
      if k < |lines| { assert after[k] == lines[k]; }
    }
    forall k | 0 <= k < |after| - 1
      ensures BreakForced(h, f, maxWidth, after, k)
    {
      assert after[k] == lines[k];
      if k + 1 < |lines| {
        assert BreakForced(h, f, maxWidth, lines, k);
        assert after[k + 1] == lines[k + 1];
      }
    }
  }

  /** The loop of `drawTextAutoLine` from position `i`, with `line` the
      current buffer and `done` the lines already drawn. */
  function WrapFrom(h: Host, f: Font, text: string, maxWidth: real, i: nat, line: string, done: seq<string>): (lines: seq<string>)
    requires i <= |text|
    requires i == 0 ==> line == [] && done == []
    requires i > 0 ==> WrapSpec(h, f, text[..i], maxWidth, done + [line])
    ensures WrapSpec(h, f, text, maxWidth, lines)
    decreases |text| - i
  {
    if i == |text| then
      if i == 0 then
        assert Concat([[]]) == [];
        [[]]
      else
        assert text[..i] == text;
        done + [line]
    else
      var testLine := line + [text[i]];
      assert text[..i + 1] == text[..i] + [text[i]];
      if h.measure(f, testLine) > maxWidth && i > 0 then
        BreakBeforeChar(h, f, text[..i], maxWidth, done + [line], text[i]);
        WrapFrom(h, f, text, maxWidth, i + 1, [text[i]], done + [line])
      else
        WrapExtendStep(h, f, text, maxWidth, i, line, done);
        WrapFrom(h, f, text, maxWidth, i + 1, testLine, done)
  }

  /** The `else` branch of the loop: the character joins the current line. */
  lemma WrapExtendStep(h: Host, f: Font, text: string, maxWidth: real, i: nat, line: string, done: seq<string>)
    requires i < |text|
    requires i == 0 ==> line == [] && done == []
    requires i > 0 ==> WrapSpec(h, f, text[..i], maxWidth, done + [line])
    requires i > 0 ==> h.measure(f, line + [text[i]]) <= maxWidth
    ensures WrapSpec(h, f, text[..i + 1], maxWidth, done + [line + [text[i]]])
  {
    assert text[..i + 1] == text[..i] + [text[i]];
    if i == 0 {
      assert Concat([[text[0]]]) == [text[0]] + Concat([]);
    } else {
      ExtendLastLine(h, f, text[..i], maxWidth, done, line, text[i]);
    }
  }

  /** One `fillText` per line, line k at `y + k * lineHeight`. */
  function PlaceLines(h: Host, f: Font, color: string, lines: seq<string>, x: real, y: real,
                      maxWidth: real, lineHeight: real, center: bool): (cmds: seq<Command>)
    ensures TextsOf(cmds) == lines
    ensures forall k :: 0 <= k < |cmds| ==>
      && cmds[k].FillText? && cmds[k].font == f && cmds[k].color == color
      && cmds[k].y == y + k as real * lineHeight
      && (!center ==> cmds[k].x == x)
      && (center ==> cmds[k].x - x == (x + maxWidth) - (cmds[k].x + h.measure(f, cmds[k].text)))
  {
    var cmds := seq(|lines|, k requires 0 <= k < |lines| =>
      FillText(lines[k],
               if center then x + (maxWidth - h.measure(f, lines[k])) / 2.0 else x,
               y + k as real * lineHeight, f, color));
    assert TextsOf(cmds) == lines;
    cmds
  }

  /** `drawTextAutoLine`: the greedy wrap of `text`, line k drawn at
      `y + k * lineHeight`, at `x` or centred in `maxWidth` when `center`. */
  function DrawTextAutoLine(h: Host, f: Font, color: string, text: string, x: real, y: real,
                            maxWidth: real, lineHeight: real, center: bool): (cmds: seq<Command>)
    ensures WrapSpec(h, f, text, maxWidth, TextsOf(cmds))
    ensures forall k :: 0 <= k < |cmds| ==>
      && cmds[k].FillText? && cmds[k].font == f && cmds[k].color == color
      && cmds[k].y == y + k as real * lineHeight
      && (!center ==> cmds[k].x == x)
      && (center ==> cmds[k].x - x == (x + maxWidth) - (cmds[k].x + h.measure(f, cmds[k].text)))
    ensures forall k :: 0 <= k < |cmds| ==> |cmds[k].text| <= 1 || h.measure(f, cmds[k].text) <= maxWidth
  {
    var lines := WrapFrom(h, f, text, maxWidth, 0, [], []);
    WrapLinesFit(h, f, text, maxWidth, lines);
    PlaceLines(h, f, color, lines, x, y, maxWidth, lineHeight, center)
  }

  /** The texts of a list of draw commands (empty for non-text commands). */
  function TextsOf(cmds: seq<Command>): (texts: seq<string>)
    ensures |texts| == |cmds|
    ensures forall k :: 0 <= k < |cmds| && cmds[k].FillText? ==> texts[k] == cmds[k].text
  {
    seq(|cmds|, k requires 0 <= k < |cmds| => if cmds[k].FillText? then cmds[k].text else [])
  }

  // ---------------------------------------------------------------------
  // Latitude/longitude label

  /** `formatLatLng`: empty when either coordinate is 0 (falsy), otherwise
      both values to six places with the suffixes `°N` and `°E` whatever the
      signs. */
  function FormatLatLng(h: Host, lat: real, lng: real): (r: string)
    ensures r == [] <==> lat == 0.0 || lng == 0.0
  {
    if lat == 0.0 || lng == 0.0 then [] else h.toFixed6(lat) + "°N," + h.toFixed6(lng) + "°E"
  }

  /** Splitting the label at its comma gives back the two formatted numbers,
      labelled N and E. */
  lemma FormatLatLngFields(h: Host, lat: real, lng: real)
    requires lat != 0.0 && lng != 0.0
    requires ',' !in h.toFixed6(lat) && ',' !in h.toFixed6(lng)
    ensures Split(FormatLatLng(h, lat, lng), ',') == [h.toFixed6(lat) + "°N", h.toFixed6(lng) + "°E"]
  {
    var a := h.toFixed6(lat) + "°N";
    var b := h.toFixed6(lng) + "°E";
    assert ',' !in a && ',' !in b;
    assert Join([a, b], ',') == FormatLatLng(h, lat, lng);
    SplitJoin([a, b], ',');
  }

  // ---------------------------------------------------------------------
  // Right block

  /** Vertical advance of an optional line. */
  function Advance(shown: bool, step: real): real
  {
    if shown then step else 0.0
  }

  /** The right block: name (bold 18, at `rightX + 16`), company, lat/lng
      label and address (at `rightX`), stacked with a running cursor that
      starts at `barY + 16` and advances 24, 20 and 20 past each line drawn. */
  function RightBlockOf(h: Host, s: Style, info: WatermarkInfo, b: Bar, k: Blocks): (rb: RightBlock)
    ensures rb.name.Some? <==> s.showName
    ensures rb.name.Some? ==>
      rb.name.value == FillText(TruthyOr(info.name, DefaultName), k.rightX + 16.0, b.y + 16.0, NameFont, s.textColor)
    ensures rb.company.Some? <==> s.showCompany
    ensures rb.company.Some? ==>
      && rb.company.value.FillText?
      && rb.company.value.text == TruncateCompany(h, Font(false, s.fontSize), TruthyOr(info.company, DefaultCompany), k.rightWidth - 24.0)
      && rb.company.value.x == k.rightX
      && rb.company.value.font == Font(false, s.fontSize) && rb.company.value.color == s.textColor
      && rb.company.value.y == b.y + 16.0 + Advance(s.showName, 24.0)
    ensures rb.latLng.Some? <==> s.showLocation && info.lat != 0.0 && info.lng != 0.0
    ensures rb.latLng.Some? ==>
      && rb.latLng.value.FillText?
      && rb.latLng.value.text == FormatLatLng(h, info.lat, info.lng)
      && rb.latLng.value.x == k.rightX
      && rb.latLng.value.font == Font(false, s.fontSize) && rb.latLng.value.color == s.textColor
      && rb.latLng.value.y == b.y + 16.0 + Advance(s.showName, 24.0) + Advance(s.showCompany, 20.0)
    ensures |rb.address| > 0 <==> s.showLocation && info.address != []
    ensures |rb.address| > 0 ==>
      && WrapSpec(h, Font(false, s.fontSize), ClipAddress(info.address), k.rightWidth - 12.0, TextsOf(rb.address))
      && forall j :: 0 <= j < |rb.address| ==>
           && rb.address[j].FillText? && rb.address[j].x == k.rightX
           && rb.address[j].font == Font(false, s.fontSize) && rb.address[j].color == s.textColor
           && rb.address[j].y == b.y + 16.0 + Advance(s.showName, 24.0) + Advance(s.showCompany, 20.0)
                                 + Advance(rb.latLng.Some?, 20.0) + j as real * 18.0
  {
    var font := Font(false, s.fontSize);
    var y0 := b.y + 16.0;
    var name := if s.showName then Some(FillText(TruthyOr(info.name, DefaultName), k.rightX + 16.0, y0, NameFont, s.textColor)) else None;
    var y1 := if s.showName then y0 + 24.0 else y0;
    var company :=
      if s.showCompany then
        Some(FillText(TruncateCompany(h, font, TruthyOr(info.company, DefaultCompany), k.rightWidth - 24.0), k.rightX, y1, font, s.textColor))
      else None;
    var y2 := if s.showCompany then y1 + 20.0 else y1;
    var showLatLng := s.showLocation && info.lat != 0.0 && info.lng != 0.0;
    var latLng := if showLatLng then Some(FillText(FormatLatLng(h, info.lat, info.lng), k.rightX, y2, font, s.textColor)) else None;
    var y3 := if showLatLng then y2 + 20.0 else y2;
    var address :=
      if s.showLocation && info.address != [] then
        DrawTextAutoLine(h, font, s.textColor, ClipAddress(info.address), k.rightX, y3, k.rightWidth - 12.0, 18.0, false)
      else [];
    RightBlock(name, company, latLng, address)
  }

  /** Switching the company line off lifts the lat/lng label and the address
      by exactly 20 and leaves the name where it was. */
  lemma HidingCompanyLiftsLaterLines(h: Host, s: Style, info: WatermarkInfo, b: Bar, k: Blocks)
    requires s.showCompany
    ensures var on := RightBlockOf(h, s, info, b, k);
            var off := RightBlockOf(h, s.(showCompany := false), info, b, k);
            && off.company.None?
            && off.name == on.name
            && (on.latLng.Some? ==> off.latLng.Some? && off.latLng.value.y == on.latLng.value.y - 20.0)
            && |off.address| == |on.address|
            && (forall j :: 0 <= j < |on.address| ==> off.address[j].y == on.address[j].y - 20.0)
  {
  }

  /** Switching the name line off lifts the company, the lat/lng label and the
      address by exactly 24. */
  lemma HidingNameLiftsLaterLines(h: Host, s: Style, info: WatermarkInfo, b: Bar, k: Blocks)
    requires s.showName
    ensures var on := RightBlockOf(h, s, info, b, k);
            var off := RightBlockOf(h, s.(showName := false), info, b, k);
            && off.name.None?
            && (on.company.Some? ==> off.company.Some? && off.company.value.y == on.company.value.y - 24.0)
            && (on.latLng.Some? ==> off.latLng.Some? && off.latLng.value.y == on.latLng.value.y - 24.0)
            && |off.address| == |on.address|
            && (forall j :: 0 <= j < |on.address| ==> off.address[j].y == on.address[j].y - 24.0)
  {
  }

  /** 1 for a flag that is on (a line that is drawn), 0 otherwise. */
  function Ones(b: bool): nat
  {
    if b then 1 else 0
  }

  /** The commands of a right block in drawing order: the name, the company,
      the lat/lng label, each only when drawn, then the address lines. */
  function RightCommands(rb: RightBlock): (cmds: seq<Command>)
    ensures |cmds| == Ones(rb.name.Some?) + Ones(rb.company.Some?) + Ones(rb.latLng.Some?) + |rb.address|
    ensures rb.name.Some? ==> cmds[0] == rb.name.value
    ensures rb.company.Some? ==> cmds[Ones(rb.name.Some?)] == rb.company.value
    ensures rb.latLng.Some? ==> cmds[Ones(rb.name.Some?) + Ones(rb.company.Some?)] == rb.latLng.value
    ensures forall j :: 0 <= j < |rb.address| ==>
      cmds[Ones(rb.name.Some?) + Ones(rb.company.Some?) + Ones(rb.latLng.Some?) + j] == rb.address[j]
  {
    (if rb.name.Some? then [rb.name.value] else [])
    + (if rb.company.Some? then [rb.company.value] else [])
    + (if rb.latLng.Some? then [rb.latLng.value] else [])
    + rb.address
  }

  // ---------------------------------------------------------------------
  // The whole call

  /** `drawWatermark` as a layout decision: the canvas, the bar, the two
      blocks and every line, or the reason the promise rejects. */
  function DrawWatermark(h: Host, vp: Viewport, info: WatermarkInfo, config: WatermarkConfig): (r: Result<Watermark, RenderError>)
    ensures !h.contextAvailable ==> r == Err(SurfaceUnavailable)
    ensures h.contextAvailable && !h.imageLoads ==> r == Err(ImageLoadFailed)
    ensures h.contextAvailable && h.imageLoads ==> r.Ok?
    ensures r.Ok? ==>
      var w := r.value;
      var s := ResolveStyle(config);
      && w.canvas.scale == PixelRatio(vp)
      && w.bar.x == 16.0 && w.bar.width == vp.width as real - 32.0
      && w.bar.height == s.barHeight
      && w.bar.y == vp.height as real - s.barHeight - 36.0
      && w.blocks.leftWidth + w.blocks.rightWidth == w.bar.width
      && w.blocks.rightX == w.bar.x + 0.4 * w.bar.width
      && w.divider == StrokeLine(w.blocks.rightX - 16.0, w.bar.y + 12.0, w.blocks.rightX - 16.0, w.bar.y + w.bar.height - 12.0, 2.0, s.textColor)
      && (|w.time| == 2 <==> s.showTime && info.time != [])
      && (w.right.name.Some? <==> s.showName)
      && (w.right.company.Some? <==> s.showCompany)
      && w.canvas == CanvasOf(vp)
      && w.time == TimeBlock(h, s, info, w.bar, w.blocks)
      && w.right == RightBlockOf(h, s, info, w.bar, w.blocks)
  {
    if !h.contextAvailable then Err(SurfaceUnavailable)
    else if !h.imageLoads then Err(ImageLoadFailed)
    else
      var s := ResolveStyle(config);
      var b := BarOf(vp, s);
      var k := BlocksOf(b);
      Ok(Watermark(CanvasOf(vp), b, k, TimeBlock(h, s, info, b, k), DividerOf(b, k, s), RightBlockOf(h, s, info, b, k)))
  }

  /** Every draw call of a successful run, in order: the photo stretched to
      the viewport, the bar, the time block, the divider, the right block. */
  function Commands(vp: Viewport, config: WatermarkConfig, w: Watermark): (cmds: seq<Command>)
    ensures |cmds| == 3 + |w.time| + |RightCommands(w.right)|
    ensures cmds[0] == DrawImage(0.0, 0.0, vp.width as real, vp.height as real)
    ensures cmds[1] == FillRoundRect(w.bar.x, w.bar.y, w.bar.width, w.bar.height, w.bar.radius,
                                     OrElse(config.backgroundColor, DefaultBackground))
    ensures forall i :: 0 <= i < |w.time| ==> cmds[2 + i] == w.time[i]
    ensures cmds[2 + |w.time|] == w.divider
    ensures forall i :: 0 <= i < |RightCommands(w.right)| ==> cmds[3 + |w.time| + i] == RightCommands(w.right)[i]
  {
    var s := ResolveStyle(config);
    [DrawImage(0.0, 0.0, vp.width as real, vp.height as real),
     FillRoundRect(w.bar.x, w.bar.y, w.bar.width, w.bar.height, w.bar.radius, s.backgroundColor)]
    + w.time + [w.divider] + RightCommands(w.right)
  }

  /** How many commands a right block holds, in terms of its flags. */
  lemma RightBlockCounts(h: Host, s: Style, info: WatermarkInfo, b: Bar, k: Blocks)
    ensures var rb := RightBlockOf(h, s, info, b, k);
      && Ones(rb.name.Some?) + Ones(rb.company.Some?) + Ones(rb.latLng.Some?)
         == Ones(s.showName) + Ones(s.showCompany) + Ones(s.showLocation && info.lat != 0.0 && info.lng != 0.0)
      && (|rb.address| > 0 <==> s.showLocation && info.address != [])
  {
  }

  /** The shape of an assembled command list, from the number of time lines,
      the number of shown single right-block lines and whether any address
      line is present. */
  lemma AssemblyShape(vp: Viewport, config: WatermarkConfig, w: Watermark, t: nat, shown: nat, addressShown: bool)
    requires |w.time| == t
    requires Ones(w.right.name.Some?) + Ones(w.right.company.Some?) + Ones(w.right.latLng.Some?) == shown
    requires |w.right.address| > 0 <==> addressShown
    ensures var cmds := Commands(vp, config, w);
      && |cmds| >= 3 + t + shown
      && cmds[0] == DrawImage(0.0, 0.0, vp.width as real, vp.height as real)
      && cmds[1].FillRoundRect? && cmds[1].color == ResolveStyle(config).backgroundColor
      && cmds[2 + t] == w.divider
      && (|cmds| > 3 + t + shown <==> addressShown)
  {
  }

  /** How many lines a successful layout holds, in terms of the flags, and
      the divider drawn in the text colour. */
  lemma LayoutCounts(h: Host, vp: Viewport, info: WatermarkInfo, config: WatermarkConfig)
    requires h.contextAvailable && h.imageLoads
    ensures var w := DrawWatermark(h, vp, info, config).value;
      var s := ResolveStyle(config);
      && |w.time| == 2 * Ones(s.showTime && info.time != [])
      && Ones(w.right.name.Some?) + Ones(w.right.company.Some?) + Ones(w.right.latLng.Some?)
         == Ones(s.showName) + Ones(s.showCompany) + Ones(s.showLocation && info.lat != 0.0 && info.lng != 0.0)
      && (|w.right.address| > 0 <==> s.showLocation && info.address != [])
      && w.divider.StrokeLine? && w.divider.color == s.textColor
  {
  }

  /** The draw calls `drawWatermark` makes, or the reason its promise
      rejects; none are made when it rejects. */
  function DrawCommands(h: Host, vp: Viewport, info: WatermarkInfo, config: WatermarkConfig): (r: Result<seq<Command>, RenderError>)
    ensures !h.contextAvailable ==> r == Err(SurfaceUnavailable)
    ensures h.contextAvailable && !h.imageLoads ==> r == Err(ImageLoadFailed)
    ensures h.contextAvailable && h.imageLoads ==> r.Ok?
  {
    if !h.contextAvailable then Err(SurfaceUnavailable)
    else if !h.imageLoads then Err(ImageLoadFailed)
    else
      var s := ResolveStyle(config);
      var b := BarOf(vp, s);
      var k := BlocksOf(b);
      Ok(Commands(vp, config, Watermark(CanvasOf(vp), b, k, TimeBlock(h, s, info, b, k), DividerOf(b, k, s), RightBlockOf(h, s, info, b, k))))
  }

  /** The draw calls are those of the layout `drawWatermark` decides, and the
      call rejects for the same reason. */
  lemma DrawCommandsOfLayout(h: Host, vp: Viewport, info: WatermarkInfo, config: WatermarkConfig)
    ensures var r := DrawWatermark(h, vp, info, config);
      && (r.Err? ==> DrawCommands(h, vp, info, config) == Err(r.error))
      && (r.Ok? ==> DrawCommands(h, vp, info, config) == Ok(Commands(vp, config, r.value)))
  {
  }
}
